=== FILE: README.md ===
# k0s process supervisor, modelled in Dafny

This project models the core of the k0s process supervisor (package
`pkg/supervisor`). The supervisor launches one component binary and restarts
it after it exits. It can be stopped at any time. The model follows the
behaviour pinned down by `pkg/supervisor/supervisor_test.go`.

Two parts are modelled:

- **Environment merger** (`getEnv(dataDir, component, keepEnvPrefix)` in the
  source; `Environment.GetEnv` here). It is a pure function from the inherited
  environment, given as an explicit `map<string, string>`, to the child's
  environment. The component name `foo` owns the variables prefixed `FOO_`.
  A prefixed variable either overrides the plain variable with the same bare
  name or is passed on verbatim, depending on the keep-prefix flag. In both
  modes, the prefixed `HTTPS_PROXY` overrides the plain one and is never
  passed on. `PATH` is always rebuilt as `<dataDir>/bin:` followed by a tail.
  `GetEnv` is built as an overlay of maps, and its contract states that it
  agrees, name by name, with `Environment.EnvLookup`, an independent per-name
  definition of the same behaviour. The test's two expected environments are proved exactly, in
  `EnvironmentCases`.
- **Supervisor lifecycle** (`Supervise`, `Stop`, `GetProcess`; module
  `Supervisor`). It is a sequential state machine with the phases `Stopped`,
  `Running(pid)` and `WaitingRespawn`. Its events are `Supervise` (carrying
  the outcome of the launch), `ChildExited`, `DelayElapsed` (carrying the
  relaunched pid) and `Stop`. `Supervise` and `Stop` answer their caller with
  `Ok` or `Err`. `ChildExited` and `DelayElapsed` are the monitor's own
  wake-ups and have no caller; by convention of the model they answer `Ok`. The state also records every pid launched so far. With
  that record, the model states that a relaunch yields a new process as long
  as the host never hands out a pid twice. The three
  lifecycle tests are replayed as event sequences in `SupervisorCases`.

Files: `wrappers.dfy` (Option/Result), `strings.dfy` (ASCII upper-casing and
prefix facts), `environment.dfy`, `environment_cases.dfy`, `supervisor.dfy`,
`supervisor_properties.dfy`, `supervisor_cases.dfy`.

Even with keep-prefix on, the test expects `HTTPS_PROXY=a.b.c:1080` and no
`FOO_HTTPS_PROXY` (pkg/supervisor/supervisor_test.go:112). The model therefore
has one always-overridden name, `HTTPS_PROXY`. The test evidences no other.

## Model

| member | source | states |
|---|---|---|
| Environment.GetEnv | pkg/supervisor/supervisor_test.go:102-112 | For every name, the child environment either lacks it or gives it the value set by the per-name rules of `EnvLookup`: `PATH` is rebuilt; a prefixed name is present only when kept; a plain name takes its consumed prefixed sibling's value, or else keeps its own |
| Environment.GetEnvInventsNoNames | pkg/supervisor/supervisor_test.go:102-112 | Every name the child sees is `PATH`, an inherited name, or the bare name of an inherited prefixed variable |
| Environment.PathAlwaysRebuilt | pkg/supervisor/supervisor_test.go:100-112 | `PATH` is always present and equals `dataDir + "/bin:"` followed by the prefixed `PATH` when keep-prefix is off and one exists, else the inherited `PATH`, else nothing |
| Environment.PrefixedSiblingOverrides | pkg/supervisor/supervisor_test.go:93-104 | With keep-prefix off, a plain name that has a prefixed sibling takes the sibling's value |
| Environment.NoPrefixedNamesWithoutKeep | pkg/supervisor/supervisor_test.go:102-104 | With keep-prefix off, no name carrying the component prefix reaches the child |
| Environment.KeepPrefixPassesPrefixedVerbatim | pkg/supervisor/supervisor_test.go:110-112 | With keep-prefix on, each prefixed variable other than an always-overridden one reaches the child under its own name with its own value |
| Environment.KeepPrefixLeavesPlainAlone | pkg/supervisor/supervisor_test.go:110-112 | With keep-prefix on, a plain variable other than `PATH` and `HTTPS_PROXY` keeps its inherited value even when it has a prefixed sibling |
| Environment.AlwaysOverriddenInBothModes | pkg/supervisor/supervisor_test.go:97-112 | In both modes, `HTTPS_PROXY` takes its prefixed sibling's value, and the prefixed `HTTPS_PROXY` never reaches the child |
| Environment.UnshadowedPassesThrough | pkg/supervisor/supervisor_test.go:91-112 | In both modes, a plain variable without a prefixed sibling reaches the child unchanged |
| Environment.ComponentPrefix | pkg/supervisor/supervisor_test.go:94-102 | The prefix a component owns is its name with every letter upper-cased, followed by `_`: it has no lower-case letter, agrees with the name letter by letter up to case, and ends in `_` |
| Environment.ComponentPrefixIgnoresCase | pkg/supervisor/supervisor_test.go:94-102 | Component names that differ only in letter case own the same prefix, so `foo` and `FOO` both own `FOO_` |
| EnvironmentCases.FooPrefix | pkg/supervisor/supervisor_test.go:94-102 | The component name `foo` owns the prefix `FOO_` |
| EnvironmentCases.DropPrefixedCase | pkg/supervisor/supervisor_test.go:88-108 | On the test's environment with keep-prefix off, the merge yields exactly the expected map `{HTTPS_PROXY=a.b.c:1080, PATH=/var/lib/k0s/bin:/usr/local/bin, k1=v1, k2=foo_v2, k3=foo_v3, k4=v4}` |
| EnvironmentCases.KeepPrefixedCase | pkg/supervisor/supervisor_test.go:110-116 | On the test's environment with keep-prefix on, the merge yields exactly the expected nine-entry map |
| EnvironmentCases.ExpectedSizes | pkg/supervisor/supervisor_test.go:104-112 | The two expected environments hold 6 and 9 distinct variables |
| EnvironmentCases.OutputSizes | pkg/supervisor/supervisor_test.go:102-112 | On the test's environment, the merge hands the child 6 variables with keep-prefix off and 9 with it on |
| Supervisor.Launch | pkg/supervisor/supervisor_test.go:54-69 | A launch succeeds, with the given pid, exactly when the working directory is a directory and the binary an executable file; otherwise it fails naming the working directory or the binary |
| Supervisor.GetProcess | pkg/supervisor/supervisor_test.go:144-148 | A process is owned after a successful start; the model owns one exactly while a child runs, and in a valid supervisor it is the one launched last |
| Supervisor.Step | pkg/supervisor/supervisor_test.go:72-82 | Only `Supervise` reports an error, exactly when the supervisor is already started or the launch fails, and then nothing changes. `Stop` always succeeds and leaves the supervisor stopped. An event launches at most one process, which is then the running one |
| Supervisor.Run | pkg/supervisor/supervisor_test.go:139-160 | A sequence of calls and events gets exactly one reply per event, and the record of launched processes is only ever extended |
| SupervisorProperties.SuperviseReportsLaunchOutcome | pkg/supervisor/supervisor_test.go:72-78 | Starting a stopped supervisor returns an error exactly when the launch fails. After a failure, the supervisor is unchanged and owns no process. After a success, it owns the launched pid |
| SupervisorProperties.StopAlwaysSucceeds | pkg/supervisor/supervisor_test.go:79-82 | Stop returns no error in every state. Afterwards no process is owned and the launch history is unchanged. A second stop changes nothing |
| SupervisorProperties.ExitIsNotAnError | pkg/supervisor/supervisor_test.go:45-53 | The child's exit is no error for the caller of `Supervise`, and the monitor's exit event answers `Ok` by convention. Afterwards the model owns no process, and a running supervisor moves to waiting for the respawn |
| SupervisorProperties.StepPreservesValid | pkg/supervisor/supervisor_test.go:150-156 | If the pid an event launches is new, the event preserves the invariant: launched pids are distinct and the running child is the one launched last |
| SupervisorProperties.RunPreservesValid | pkg/supervisor/supervisor_test.go:150-156 | A whole event sequence preserves the same invariant, provided each pid it launches is new |
| SupervisorProperties.RespawnYieldsNewPid | pkg/supervisor/supervisor_test.go:144-156 | From a running state, the child's exit leaves no process owned. After the delay elapses, the supervisor owns the relaunched pid. When the host hands out a pid it never gave before, that pid differs from the one that exited |
| SupervisorProperties.RelaunchedProcessIsNew | pkg/supervisor/supervisor_test.go:153-156 | After any event sequence that launched something, in which each pid the host hands out is new, the process owned at the end differs from the one owned at the start |
| SupervisorProperties.StoppedStaysStopped | pkg/supervisor/supervisor_test.go:188-192 | A stopped supervisor that is not started again stays exactly as it is, whatever exits, elapsed delays or stops arrive. Each stop answers `Ok`, and so, by convention, does each monitor event |
| SupervisorProperties.NoRelaunchAfterStop | pkg/supervisor/supervisor_test.go:182-192 | After a stop, no later exit or elapsed delay brings a process back or launches a new one |
| SupervisorCases.SupervisorStartCases | pkg/supervisor/supervisor_test.go:34-84 | Of the four start cases, the sleeping child and the child that exits with a failure start without error. A directory as the binary fails, and so does an unusable working directory. Stop succeeds in all four, and for the failing child also after it has exited |
| SupervisorCases.RespawnScenario | pkg/supervisor/supervisor_test.go:126-162 | The sequence start, exit, delay elapsed, stop: every call succeeds. The process owned is first the original, then none, then the relaunched one with a different pid, then none |
| SupervisorCases.StopWhileRespawnScenario | pkg/supervisor/supervisor_test.go:164-193 | Start, exit, then stop during the respawn delay: every call succeeds, and no later event brings a process back |

## Left out

- Process creation, signals and OS errors are not modelled. `Supervisor.Launch` decides a launch from a `FileSystem` map of path kinds. It checks the working directory before the binary, and that order is a modelling choice. The test at pkg/supervisor/supervisor_test.go:62-69 fails on both counts, so it does not fix the order.
- Goroutines, the mutex, `time.Sleep` and the respawn timer are not modelled. The child's exit and the end of the respawn delay are the discrete events `ChildExited` and `DelayElapsed`. The respawn duration is carried in the descriptor but not interpreted.
- The global process environment (`os.Clearenv`, `os.Setenv`, `os.Environ`) is replaced by an explicit map argument. The test's `sort.Strings` / `fmt.Sprintf` rendering is replaced by direct map equality.
- Environment.ComponentPrefix: upper-cases ASCII letters only. Go's `strings.ToUpper` is Unicode-aware, and that is not modelled.
- Environment.GetEnv: the `bin` directory is formed as `dataDir + "/bin"`, without path cleaning. When neither `PATH` nor a consumed prefixed `PATH` is inherited, the tail after `<dataDir>/bin:` is empty. The test does not exercise that case.
- Environment.GetEnv: a consumed prefixed variable whose bare name is itself prefixed (`FOO_FOO_x`) is dropped, so that no prefixed name reaches the child when keep-prefix is off. The test does not exercise this case.
- Environment.GetEnv: a consumed prefixed variable without a plain sibling still sets its bare name (a lone `FOO_x` yields `x`; with keep-prefix on, a lone `FOO_HTTPS_PROXY` yields `HTTPS_PROXY`). The test does not exercise this case.
- Other proxy variables (`HTTP_PROXY`, `NO_PROXY`) are not treated as always-overridden. The test evidences only `HTTPS_PROXY`.
- Extra environment variables supplied through the supervisor descriptor are not modelled. The tests set no such field.
- The environment merger and the lifecycle are not connected: `Supervisor.Launch` takes no environment, so the model does not state that a launch or relaunch runs with the environment `Environment.GetEnv` computes. The tests check the two separately.
- A failed relaunch after the respawn delay is not modelled: `DelayElapsed` always brings a launched pid. The tests do not exercise a failed relaunch.
- Stop never fails in the model, and it has no forced-kill escalation. A failure to signal a live process is an OS error, and the tests do not exercise a forced kill.
- Supervisor.GetProcess: returning no process between a child's exit and its relaunch is a modelling choice: the supervisor clears its handle whenever the child exits. The test does not fix this, and pkg/supervisor/supervisor_test.go:151-154 reads the handle after the respawn delay, when the relaunched `true` may already have exited, so it expects a handle in that window.
- SupervisorProperties.ExitIsNotAnError: "afterwards the model owns no process" is the same modelling choice as for `Supervisor.GetProcess`; the test does not fix it.
- Supervisor.Step: a `Supervise` call on a supervisor that is not stopped returns `AlreadySupervising` and changes nothing. This is a modelling choice, because the tests start each supervisor only once.
- SupervisorProperties.RespawnYieldsNewPid: the new pid differs from the exited one only because the lemma assumes the host hands out a pid it never gave this supervisor before. The supervisor itself does not promise this.
- SupervisorProperties.RelaunchedProcessIsNew: the same host assumption, stated for every launch in the sequence.
- SupervisorCases.RespawnScenario: the new pid's freshness is an assumption about the host, not a promise of the supervisor. The host must not hand out the first child's pid again. The test relies on the same assumption when it compares pids.

=== FILE: environment.dfy ===
/**
 * The environment merger: builds the environment a supervised component is
 * started with from the environment the supervisor inherited.
 *
 * A component named `foo` owns the variables whose names start with `FOO_`
 * (its "prefixed" variables). Such a variable either overrides the plain
 * variable of the same bare name, or is passed on verbatim beside it,
 * depending on the keep-prefix flag. `PATH` is always rebuilt so that the
 * data directory's `bin` comes first.
 */
module Environment {
  import opened Wrappers
  import Strings

  /** An environment: variable name to value. Names are distinct by construction. */
  type Environ = map<string, string>

  const PathKey: string := "PATH"

  /** Bare names whose prefixed variable overrides them even when prefixed variables are kept. */
  const AlwaysOverridden: set<string> := {"HTTPS_PROXY"}

  /** The name prefix owned by `component`: upper-cased and followed by `_` ("foo" gives "FOO_"). */
  function ComponentPrefix(component: string): (p: string)
    ensures |p| == |component| + 1
    ensures p[|component|] == '_'
    ensures forall i :: 0 <= i < |component| ==> !('a' <= p[i] <= 'z')
    ensures forall i :: 0 <= i < |component| ==> Strings.UpperChar(p[i]) == Strings.UpperChar(component[i])
  {
    Strings.ToUpper(component) + "_"
  }

  /** The directory holding the data directory's executables. */
  function BinDir(dataDir: string): (dir: string)
  {
    dataDir + "/bin"
  }

  /** Whether the prefixed variable `key` is used up as an override of its bare name. */
  predicate Consumed(p: string, keep: bool, key: string)
    requires p <= key
  {
    !keep || key[|p|..] in AlwaysOverridden
  }

  /** Whether the plain name `k` is overridden by its prefixed sibling `p + k`. */
  predicate Overridden(env: Environ, p: string, keep: bool, k: string)
  {
    p + k in env && (!keep || k in AlwaysOverridden)
  }

  /** The inherited plain variables, untouched. */
  function PlainPart(env: Environ, p: string): (part: Environ)
  {
    map k | k in env && !(p <= k) :: env[k]
  }

  /** The bare names of the consumed prefixed variables (bare names that are themselves prefixed are dropped). */
  function OverrideNames(env: Environ, p: string, keep: bool): (names: set<string>)
  {
    set q | q in env && p <= q && Consumed(p, keep, q) && !(p <= q[|p|..]) :: q[|p|..]
  }

  /** The consumed prefixed variables, renamed to their bare names. */
  function OverridePart(env: Environ, p: string, keep: bool): (part: Environ)
  {
    OverrideNamesExact(env, p, keep);
    map k | k in OverrideNames(env, p, keep) :: env[p + k]
  }

  /** The prefixed variables that are passed on under their own names. */
  function KeptPart(env: Environ, p: string, keep: bool): (part: Environ)
  {
    map q | q in env && p <= q && !Consumed(p, keep, q) :: env[q]
  }

  /**
   * The overlay for the name prefix `p`: the plain variables overlaid with
   * the consumed overrides, next to the kept prefixed variables, with `PATH`
   * rebuilt as `<dataDir>/bin:` followed by whatever `PATH` the overlay
   * produced.
   */
  function Merge(env: Environ, dataDir: string, p: string, keep: bool): (r: Environ)
  {
    var merged := PlainPart(env, p) + OverridePart(env, p, keep) + KeptPart(env, p, keep);
    var tail := if PathKey in merged then merged[PathKey] else "";
    merged[PathKey := BinDir(dataDir) + ":" + tail]
  }

  /**
   * The child environment of `component`: for every name, it answers as the
   * per-name reference definition `EnvLookup` does.
   */
  function GetEnv(env: Environ, dataDir: string, component: string, keep: bool): (r: Environ)
    ensures forall k :: Find(r, k) == EnvLookup(env, dataDir, ComponentPrefix(component), keep, k)
  {
    PathIsPlain(component);
    MergeAgreesWithLookup(env, dataDir, ComponentPrefix(component), keep);
    Merge(env, dataDir, ComponentPrefix(component), keep)
  }

  /** The part of the rebuilt `PATH` that follows the data directory's `bin`. */
  function PathTail(env: Environ, p: string, keep: bool): (tail: string)
  {
    if Overridden(env, p, keep, PathKey) then env[p + PathKey]
    else if PathKey in env then env[PathKey]
    else ""
  }

  /**
   * Reference definition, one name at a time: the value the child sees
   * under `k`, or `None` when `k` is not set for the child.
   */
  function EnvLookup(env: Environ, dataDir: string, p: string, keep: bool, k: string): (v: Option<string>)
  {
    if k == PathKey then Some(BinDir(dataDir) + ":" + PathTail(env, p, keep))
    else if p <= k then
      if k in env && !Consumed(p, keep, k) then Some(env[k]) else None
    else if Overridden(env, p, keep, k) then Some(env[p + k])
    else if k in env then Some(env[k])
    else None
  }

  /** No component prefix is a prefix of `PATH`: the prefix ends in `_` and `PATH` has none. */
  lemma PathIsPlain(component: string)
    ensures !(ComponentPrefix(component) <= PathKey)
  {
    var p := ComponentPrefix(component);
    Strings.NotPrefixWithoutLastChar(p, PathKey);
  }

  /** A name is overridden exactly when it is plain and its prefixed sibling is consumed. */
  lemma OverrideNamesExact(env: Environ, p: string, keep: bool)
    ensures forall k :: k in OverrideNames(env, p, keep) <==> !(p <= k) && Overridden(env, p, keep, k)
  {
    forall k
      ensures k in OverrideNames(env, p, keep) <==> !(p <= k) && Overridden(env, p, keep, k)
    {
      Strings.RestOfConcat(p, k);
      if !(p <= k) && Overridden(env, p, keep, k) {
        var q := p + k;
        assert q in env && p <= q && Consumed(p, keep, q) && !(p <= q[|p|..]);
      }
      if k in OverrideNames(env, p, keep) {
        var q :| q in env && p <= q && Consumed(p, keep, q) && !(p <= q[|p|..]) && q[|p|..] == k;
        Strings.PrefixThenRest(p, q);
      }
    }
  }

  /** The overlay answers every lookup as the reference definition does. */
  lemma MergeAgreesWithLookup(env: Environ, dataDir: string, p: string, keep: bool)
    requires !(p <= PathKey)
    ensures forall k :: Find(Merge(env, dataDir, p, keep), k) == EnvLookup(env, dataDir, p, keep, k)
  {
    var plain, over, kept := PlainPart(env, p), OverridePart(env, p, keep), KeptPart(env, p, keep);
    OverrideNamesExact(env, p, keep);
    forall k
      ensures Find(Merge(env, dataDir, p, keep), k) == EnvLookup(env, dataDir, p, keep, k)
    {
      if k == PathKey {
        assert PathKey !in kept;
      } else if p <= k {
        assert k !in plain;
      } else {
        assert k !in kept;
      }
    }
  }

  /** Components whose names differ only in letter case own the same prefix. */
  lemma ComponentPrefixIgnoresCase(c1: string, c2: string)
    requires |c1| == |c2|
    requires forall i :: 0 <= i < |c1| ==> Strings.UpperChar(c1[i]) == Strings.UpperChar(c2[i])
    ensures ComponentPrefix(c1) == ComponentPrefix(c2)
    ensures ComponentPrefix(Strings.ToUpper(c1)) == ComponentPrefix(c1)
  {
    Strings.ToUpperIgnoresCase(c1, c2);
    var u := Strings.ToUpper(c1);
    assert forall i :: 0 <= i < |u| ==> Strings.UpperChar(u[i]) == Strings.UpperChar(c1[i]);
    Strings.ToUpperIgnoresCase(u, c1);
  }

  /** Every name the child sees is `PATH`, an inherited name, or the bare name of an inherited prefixed one. */
  lemma GetEnvInventsNoNames(env: Environ, dataDir: string, component: string, keep: bool)
    ensures forall k :: k in GetEnv(env, dataDir, component, keep) ==>
      k == PathKey || k in env || ComponentPrefix(component) + k in env
  {
    forall k | k in GetEnv(env, dataDir, component, keep)
      ensures k == PathKey || k in env || ComponentPrefix(component) + k in env
    {
      assert Find(GetEnv(env, dataDir, component, keep), k) == EnvLookup(env, dataDir, ComponentPrefix(component), keep, k);
    }
  }

  /**
   * `PATH` is always set, to the data directory's `bin` followed by the
   * component's own `PATH` when prefixed variables are consumed and it has
   * one, and by the inherited `PATH` otherwise.
   */
  lemma PathAlwaysRebuilt(env: Environ, dataDir: string, component: string, keep: bool)
    ensures var r, p := GetEnv(env, dataDir, component, keep), ComponentPrefix(component);
      && PathKey in r
      && r[PathKey] == dataDir + "/bin:" +
           (if !keep && p + PathKey in env then env[p + PathKey]
            else if PathKey in env then env[PathKey]
            else "")
  {
    assert Find(GetEnv(env, dataDir, component, keep), PathKey) == EnvLookup(env, dataDir, ComponentPrefix(component), keep, PathKey);
  }

  /** Without keep-prefix, a plain name with a prefixed sibling takes the sibling's value. */
  lemma PrefixedSiblingOverrides(env: Environ, dataDir: string, component: string, k: string)
    requires !(ComponentPrefix(component) <= k) && k != PathKey
    requires ComponentPrefix(component) + k in env
    ensures var r := GetEnv(env, dataDir, component, false);
      k in r && r[k] == env[ComponentPrefix(component) + k]
  {
    assert Find(GetEnv(env, dataDir, component, false), k) == EnvLookup(env, dataDir, ComponentPrefix(component), false, k);
  }

  /** Without keep-prefix, no name carrying the component prefix reaches the child. */
  lemma NoPrefixedNamesWithoutKeep(env: Environ, dataDir: string, component: string)
    ensures forall k :: k in GetEnv(env, dataDir, component, false) ==> !(ComponentPrefix(component) <= k)
  {
    forall k | k in GetEnv(env, dataDir, component, false)
      ensures !(ComponentPrefix(component) <= k)
    {
      assert Find(GetEnv(env, dataDir, component, false), k) == EnvLookup(env, dataDir, ComponentPrefix(component), false, k);
    }
  }

  /**
   * With keep-prefix, every prefixed variable except those for an
   * always-overridden name is passed on verbatim.
   */
  lemma KeepPrefixPassesPrefixedVerbatim(env: Environ, dataDir: string, component: string, q: string)
    requires ComponentPrefix(component) <= q && q in env
    requires q[|ComponentPrefix(component)|..] !in AlwaysOverridden
    ensures var r := GetEnv(env, dataDir, component, true);
      q in r && r[q] == env[q]
  {
    PathIsPlain(component);
    assert Find(GetEnv(env, dataDir, component, true), q) == EnvLookup(env, dataDir, ComponentPrefix(component), true, q);
  }

  /** With keep-prefix, plain names other than `PATH` and the always-overridden ones keep their values. */
  lemma KeepPrefixLeavesPlainAlone(env: Environ, dataDir: string, component: string, k: string)
    requires !(ComponentPrefix(component) <= k) && k != PathKey && k !in AlwaysOverridden
    requires k in env
    ensures var r := GetEnv(env, dataDir, component, true);
      k in r && r[k] == env[k]
  {
    assert Find(GetEnv(env, dataDir, component, true), k) == EnvLookup(env, dataDir, ComponentPrefix(component), true, k);
  }

  /**
   * An always-overridden name takes its prefixed sibling's value in both
   * modes, and that sibling never reaches the child under its own name.
   */
  lemma AlwaysOverriddenInBothModes(env: Environ, dataDir: string, component: string, keep: bool, k: string)
    requires k in AlwaysOverridden && !(ComponentPrefix(component) <= k)
    requires ComponentPrefix(component) + k in env
    ensures var r, p := GetEnv(env, dataDir, component, keep), ComponentPrefix(component);
      && k in r && r[k] == env[p + k]
      && p + k !in r
  {
    var p := ComponentPrefix(component);
    Strings.RestOfConcat(p, k);
    assert Find(GetEnv(env, dataDir, component, keep), k) == EnvLookup(env, dataDir, ComponentPrefix(component), keep, k);
    assert Find(GetEnv(env, dataDir, component, keep), p + k) == EnvLookup(env, dataDir, ComponentPrefix(component), keep, p + k);
  }

  /** A plain name without a prefixed sibling passes through unchanged in both modes. */
  lemma UnshadowedPassesThrough(env: Environ, dataDir: string, component: string, keep: bool, k: string)
    requires !(ComponentPrefix(component) <= k) && k != PathKey
    requires k in env && ComponentPrefix(component) + k !in env
    ensures var r := GetEnv(env, dataDir, component, keep);
      k in r && r[k] == env[k]
  {
    assert Find(GetEnv(env, dataDir, component, keep), k) == EnvLookup(env, dataDir, ComponentPrefix(component), keep, k);
  }
}

=== FILE: environment_cases.dfy ===
/**
 * The inherited environment and the two expected child environments of the
 * environment-merger test, proved exactly.
 */
module EnvironmentCases {
  import opened Wrappers
  import opened Environment
  import Strings

  /** The environment the test installs before merging. */
  function TestEnviron(): Environ
  {
    map[
      "k3" := "v3", "PATH" := "/bin", "k2" := "v2", "FOO_k3" := "foo_v3",
      "k4" := "v4", "FOO_k2" := "foo_v2", "FOO_HTTPS_PROXY" := "a.b.c:1080",
      "HTTPS_PROXY" := "1.2.3.4:8888", "k1" := "v1", "FOO_PATH" := "/usr/local/bin"
    ]
  }

  /** Expected child environment when prefixed variables are consumed. */
  function ExpectedDropPrefixed(): Environ
  {
    map[
      "HTTPS_PROXY" := "a.b.c:1080", "PATH" := "/var/lib/k0s/bin:/usr/local/bin",
      "k1" := "v1", "k2" := "foo_v2", "k3" := "foo_v3", "k4" := "v4"
    ]
  }

  /** Expected child environment when prefixed variables are kept. */
  function ExpectedKeepPrefixed(): Environ
  {
    map[
      "FOO_PATH" := "/usr/local/bin", "FOO_k2" := "foo_v2", "FOO_k3" := "foo_v3",
      "HTTPS_PROXY" := "a.b.c:1080", "PATH" := "/var/lib/k0s/bin:/bin",
      "k1" := "v1", "k2" := "v2", "k3" := "v3", "k4" := "v4"
    ]
  }

  /** The component "foo" owns the names starting with "FOO_". */
  lemma FooPrefix()
    ensures ComponentPrefix("foo") == "FOO_"
  {
    assert Strings.ToUpper("foo") == "FOO";
  }

  /** The bare names of the test's prefixed variables. */
  lemma TestSiblings(k: string)
    requires "FOO_" + k in TestEnviron()
    ensures k in {"k3", "k2", "HTTPS_PROXY", "PATH"}
  {
    var q := "FOO_" + k;
    Strings.RestOfConcat("FOO_", k);
    assert q[..4] == "FOO_" && q[0] == 'F' && |q| >= 4;
    assert q in {"FOO_k3", "FOO_k2", "FOO_HTTPS_PROXY", "FOO_PATH"};
  }

  /** How the component prefix splits the test's names. */
  lemma TestNameSplit(k: string)
    requires k in TestEnviron()
    ensures k in {"k1", "k2", "k3", "k4", "PATH", "HTTPS_PROXY"} ==> !("FOO_" <= k)
    ensures k in {"FOO_k2", "FOO_k3", "FOO_PATH", "FOO_HTTPS_PROXY"} ==> "FOO_" <= k && k == "FOO_" + k[4..]
  {
    if "FOO_" <= k {
      assert k[0] == 'F' && k[3] == '_' && |k| >= 4;
    }
  }

  /** The prefixed siblings of the test's plain names, and the two rebuilt `PATH` values. */
  lemma TestLiteralFacts()
    ensures "FOO_" + "k2" == "FOO_k2" && "FOO_" + "k3" == "FOO_k3"
    ensures "FOO_" + "PATH" == "FOO_PATH" && "FOO_" + "HTTPS_PROXY" == "FOO_HTTPS_PROXY"
    ensures "FOO_" + "k1" !in TestEnviron() && "FOO_" + "k4" !in TestEnviron()
    ensures BinDir("/var/lib/k0s") + ":" + "/usr/local/bin" == "/var/lib/k0s/bin:/usr/local/bin"
    ensures BinDir("/var/lib/k0s") + ":" + "/bin" == "/var/lib/k0s/bin:/bin"
  {
    assert "FOO_" + "k1" == "FOO_k1";
    assert "FOO_" + "k4" == "FOO_k4";
  }

  /** The child environment of the test, in either mode, agrees with `expected` on every name. */
  lemma TestCaseAgrees(keep: bool, expected: Environ)
    requires expected.Keys <= TestEnviron().Keys
    requires forall k :: k in TestEnviron().Keys ==>
      Find(expected, k) == EnvLookup(TestEnviron(), "/var/lib/k0s", "FOO_", keep, k)
    ensures GetEnv(TestEnviron(), "/var/lib/k0s", "foo", keep) == expected
  {
    var env := TestEnviron();
    var r := GetEnv(env, "/var/lib/k0s", "foo", keep);
    FooPrefix();
    GetEnvInventsNoNames(env, "/var/lib/k0s", "foo", keep);
    forall k
      ensures Find(r, k) == Find(expected, k)
    {
      assert Find(r, k) == EnvLookup(env, "/var/lib/k0s", "FOO_", keep, k);
      if k !in env {
        if "FOO_" + k in env {
          TestSiblings(k);
        }
        assert k !in expected;
      }
    }
    FindExtensional(r, expected);
  }

  /** On each inherited name, the expected result without keep-prefix is the reference lookup. */
  lemma DropPrefixedAt(k: string)
    requires k in TestEnviron()
    ensures Find(ExpectedDropPrefixed(), k) == EnvLookup(TestEnviron(), "/var/lib/k0s", "FOO_", false, k)
  {
    TestNameSplit(k);
    TestLiteralFacts();
  }

  /** On each inherited name, the expected result with keep-prefix is the reference lookup. */
  lemma KeepPrefixedAt(k: string)
    requires k in TestEnviron()
    ensures Find(ExpectedKeepPrefixed(), k) == EnvLookup(TestEnviron(), "/var/lib/k0s", "FOO_", true, k)
  {
    TestNameSplit(k);
    TestLiteralFacts();
  }

  /** Merging without keep-prefix yields exactly the six expected variables. */
  lemma DropPrefixedCase()
    ensures GetEnv(TestEnviron(), "/var/lib/k0s", "foo", false) == ExpectedDropPrefixed()
  {
    var env := TestEnviron();
    assert ExpectedDropPrefixed().Keys <= env.Keys;
    forall k | k in env.Keys
      ensures Find(ExpectedDropPrefixed(), k) == EnvLookup(env, "/var/lib/k0s", "FOO_", false, k)
    {
      DropPrefixedAt(k);
    }
    TestCaseAgrees(false, ExpectedDropPrefixed());
  }

  /** Merging with keep-prefix yields exactly the nine expected variables. */
  lemma KeepPrefixedCase()
    ensures GetEnv(TestEnviron(), "/var/lib/k0s", "foo", true) == ExpectedKeepPrefixed()
  {
    var env := TestEnviron();
    assert ExpectedKeepPrefixed().Keys <= env.Keys;
    forall k | k in env.Keys
      ensures Find(ExpectedKeepPrefixed(), k) == EnvLookup(env, "/var/lib/k0s", "FOO_", true, k)
    {
      KeepPrefixedAt(k);
    }
    TestCaseAgrees(true, ExpectedKeepPrefixed());
  }

  /** The two expected environments hold six and nine distinct variables. */
  lemma ExpectedSizes()
    ensures |ExpectedDropPrefixed()| == 6
    ensures |ExpectedKeepPrefixed()| == 9
  {
    assert ExpectedDropPrefixed().Keys == {"HTTPS_PROXY", "PATH", "k1", "k2", "k3", "k4"};
    assert ExpectedKeepPrefixed().Keys
        == {"FOO_PATH", "FOO_k2", "FOO_k3", "HTTPS_PROXY", "PATH", "k1", "k2", "k3", "k4"};
  }

  /** The merge hands the child six variables without keep-prefix and nine with it. */
  lemma OutputSizes()
    ensures |GetEnv(TestEnviron(), "/var/lib/k0s", "foo", false)| == 6
    ensures |GetEnv(TestEnviron(), "/var/lib/k0s", "foo", true)| == 9
  {
    DropPrefixedCase();
    KeepPrefixedCase();
    ExpectedSizes();
  }
}

=== FILE: strings.dfy ===
/** Facts about strings used as environment-variable names. */
module Strings {

  /** Upper-cases one ASCII letter and leaves every other character alone. */
  function UpperChar(c: char): (u: char)
    ensures !('a' <= u <= 'z')
  {
    if 'a' <= c <= 'z' then (c as int - 'a' as int + 'A' as int) as char else c
  }

  /** ASCII upper-casing of a whole string, character by character. */
  function ToUpper(s: string): (r: string)
    ensures |r| == |s|
  {
    seq(|s|, i requires 0 <= i < |s| => UpperChar(s[i]))
  }

  /** Strings that agree letter by letter up to case have the same upper-case form. */
  lemma ToUpperIgnoresCase(s1: string, s2: string)
    requires |s1| == |s2|
    requires forall i :: 0 <= i < |s1| ==> UpperChar(s1[i]) == UpperChar(s2[i])
    ensures ToUpper(s1) == ToUpper(s2)
  {
    assert forall i :: 0 <= i < |s1| ==> ToUpper(s1)[i] == ToUpper(s2)[i];
  }

  /** Gluing a prefix back onto what remains after removing it restores the string. */
  lemma PrefixThenRest(p: string, q: string)
    requires p <= q
    ensures p + q[|p|..] == q
  {
    assert q == q[..|p|] + q[|p|..];
  }

  /** Removing the prefix `p` from `p + k` gives back `k`. */
  lemma RestOfConcat(p: string, k: string)
    ensures p <= p + k
    ensures (p + k)[|p|..] == k
  {
    assert (p + k)[..|p|] == p;
  }

  /** A prefix ending in a character that `s` never contains is not a prefix of `s`. */
  lemma NotPrefixWithoutLastChar(p: string, s: string)
    requires |p| > 0
    requires forall i :: 0 <= i < |s| ==> s[i] != p[|p| - 1]
    ensures !(p <= s)
  {
    if |p| <= |s| {
      assert s[|p| - 1] != p[|p| - 1];
    }
  }
}

=== FILE: supervisor.dfy ===
/**
 * The supervisor lifecycle as a sequential, event-driven state machine.
 *
 * A supervisor launches one executable, relaunches it after it exits and a
 * respawn delay has elapsed, and can be stopped at any point. Threads,
 * timers and the operating system are abstracted away: the outcome of a
 * launch, the child's exit and the end of the delay arrive as events.
 */
module Supervisor {
  import opened Wrappers

  /** An operating-system process id. */
  type Pid = nat

  /** What a path names on the host. */
  datatype FileKind = Directory | ExecutableFile | OtherFile

  /** The parts of the host's file system a launch depends on. */
  type FileSystem = map<string, FileKind>

  /** The caller's description of the component to supervise. */
  datatype Descriptor = Descriptor(
    name: string,
    binPath: string,
    runDir: string,
    args: seq<string>,
    timeoutRespawn: nat)

  /** Why a launch attempt failed. */
  datatype LaunchError = RunDirUnusable(dir: string) | NotExecutable(path: string)

  /** Why `Supervise` refused to start the component. */
  datatype SupervisorError = LaunchFailed(cause: LaunchError) | AlreadySupervising

  /** The answer an operation gives its caller: nil or an error. */
  datatype Reply = Ok | Err(error: SupervisorError)

  /** Where the respawn loop stands. */
  datatype Phase = Stopped | Running(pid: Pid) | WaitingRespawn

  /** A supervisor: its phase and, oldest first, every pid it has launched. */
  datatype Supervisor = Supervisor(phase: Phase, spawned: seq<Pid>)

  /** Something that happens to a supervisor. */
  datatype Event =
    | Supervise(launch: Result<Pid, LaunchError>)  // a caller starts it; the launch outcome comes with it
    | ChildExited                                  // the current child terminated, whatever its status
    | DelayElapsed(pid: Pid)                       // the respawn delay ran out; the relaunch got `pid`
    | Stop                                         // a caller stops it

  /** A supervisor that has never been started. */
  const Initial: Supervisor := Supervisor(Stopped, [])

  /**
   * One synchronous attempt to start `d`: the working directory must be a
   * directory and the binary an executable file. The child's own exit
   * status plays no part.
   */
  function Launch(fs: FileSystem, d: Descriptor, pid: Pid): (r: Result<Pid, LaunchError>)
    ensures r.Success? <==> Find(fs, d.runDir) == Some(Directory) && Find(fs, d.binPath) == Some(ExecutableFile)
    ensures r.Success? ==> r.value == pid
    ensures r.Failure? ==> r.error in {RunDirUnusable(d.runDir), NotExecutable(d.binPath)}
  {
    if d.runDir !in fs || fs[d.runDir] != Directory then Failure(RunDirUnusable(d.runDir))
    else if d.binPath !in fs || fs[d.binPath] != ExecutableFile then Failure(NotExecutable(d.binPath))
    else Success(pid)
  }

  /**
   * The process currently owned, if any: present exactly while a child is
   * running, and then the one launched last.
   */
  function GetProcess(s: Supervisor): (r: Option<Pid>)
    ensures r.Some? <==> s.phase.Running?
    ensures r.Some? && Valid(s) ==> r.value == s.spawned[|s.spawned| - 1]
  {
    match s.phase
    case Running(pid) => Some(pid)
    case _ => None
  }

  /**
   * The supervisor after `e`, and the reply its caller sees. Only `Supervise`
   * can report an error: when the supervisor is already started or the
   * launch fails, and then nothing changes. `Stop` always succeeds and
   * leaves no process owned. An event launches at most one process, which
   * is then the one running.
   */
  function Step(s: Supervisor, e: Event): (r: (Supervisor, Reply))
    ensures r.1.Err? <==> e.Supervise? && (!s.phase.Stopped? || e.launch.Failure?)
    ensures r.1.Err? ==> r.0 == s
    ensures e.Stop? ==> r.1 == Ok && r.0.phase == Stopped
    ensures r.0.spawned == s.spawned
         || (r.0.phase.Running? && r.0.spawned == s.spawned + [r.0.phase.pid])
  {
    match e
    case Supervise(launch) =>
      if !s.phase.Stopped? then (s, Err(AlreadySupervising))
      else (match launch
            case Success(pid) => (Supervisor(Running(pid), s.spawned + [pid]), Ok)
            case Failure(cause) => (s, Err(LaunchFailed(cause))))
    case ChildExited =>
      if s.phase.Running? then (s.(phase := WaitingRespawn), Ok) else (s, Ok)
    case DelayElapsed(pid) =>
      if s.phase.WaitingRespawn? then (Supervisor(Running(pid), s.spawned + [pid]), Ok) else (s, Ok)
    case Stop =>
      (s.(phase := Stopped), Ok)
  }

  /** The supervisor after a sequence of events, with one reply per event. */
  function Run(s: Supervisor, events: seq<Event>): (r: (Supervisor, seq<Reply>))
    ensures |r.1| == |events|
    ensures |s.spawned| <= |r.0.spawned| && r.0.spawned[..|s.spawned|] == s.spawned
    decreases |events|
  {
    if events == [] then (s, [])
    else
      var (next, reply) := Step(s, events[0]);
      var (last, replies) := Run(next, events[1..]);
      (last, [reply] + replies)
  }

  /** Whether the pid an event launches, if it launches one, has never been launched by `s` before. */
  predicate FreshPid(s: Supervisor, e: Event)
  {
    match e
    case Supervise(Success(pid)) => s.phase.Stopped? ==> pid !in s.spawned
    case DelayElapsed(pid) => s.phase.WaitingRespawn? ==> pid !in s.spawned
    case _ => true
  }

  /** Every pid the events launch is new when it is launched (the host does not reuse pids). */
  predicate FreshTrace(s: Supervisor, events: seq<Event>)
    decreases |events|
  {
    events == [] || (FreshPid(s, events[0]) && FreshTrace(Step(s, events[0]).0, events[1..]))
  }

  /** Pairwise distinct elements. */
  predicate Distinct(xs: seq<Pid>)
  {
    forall i, j :: 0 <= i < j < |xs| ==> xs[i] != xs[j]
  }

  /**
   * The supervisor's invariant: the pids it launched are distinct, and a
   * running child is the one launched last.
   */
  predicate Valid(s: Supervisor)
  {
    && Distinct(s.spawned)
    && (s.phase.Running? ==> |s.spawned| > 0 && s.phase.pid == s.spawned[|s.spawned| - 1])
  }
}

=== FILE: supervisor_cases.dfy ===
/** The supervisor test scenarios, replayed as event sequences on the model. */
module SupervisorCases {
  import opened Wrappers
  import opened Supervisor
  import opened SupervisorProperties

  /** The host as the start test meets it: a shell, the current directory and `/tmp`. */
  const TestHost: FileSystem := map["/bin/sh" := ExecutableFile, "." := Directory, "/tmp" := Directory]

  const SleepCase: Descriptor := Descriptor("supervisor-test-sleep", "/bin/sh", ".", ["-c", "sleep 1s"], 0)
  const FailCase: Descriptor := Descriptor("supervisor-test-fail", "/bin/sh", ".", ["-c", "false"], 0)
  const NonExecutableCase: Descriptor := Descriptor("supervisor-test-non-executable", "/tmp", ".", [], 0)
  const RunDirFailCase: Descriptor := Descriptor("supervisor-test-rundir-fail", "/tmp", "/bin/sh/foo/bar", [], 0)

  /** Running a non-empty sequence is one step followed by the rest. */
  lemma RunCons(s: Supervisor, e: Event, rest: seq<Event>)
    ensures var (next, reply) := Step(s, e);
      Run(s, [e] + rest) == (Run(next, rest).0, [reply] + Run(next, rest).1)
  {
    assert ([e] + rest)[1..] == rest;
  }

  /** The replies to starting a fresh supervisor for `d` on the test host and then stopping it. */
  function StartThenStop(d: Descriptor, pid: Pid): seq<Reply>
  {
    Run(Initial, [Supervise(Launch(TestHost, d, pid)), Stop]).1
  }

  /** The replies to starting a fresh supervisor for `d`, letting its child exit, and stopping it. */
  function StartExitStop(d: Descriptor, pid: Pid): seq<Reply>
  {
    Run(Initial, [Supervise(Launch(TestHost, d, pid)), ChildExited, Stop]).1
  }

  /**
   * Starting succeeds for a child that sleeps and for one that exits with a
   * failure status; it fails for a directory as binary and for an unusable
   * working directory. Stopping succeeds in all four cases, and for the
   * failing child whether or not it has exited before the stop.
   */
  lemma SupervisorStartCases(pid: Pid)
    ensures StartThenStop(SleepCase, pid) == [Ok, Ok]
    ensures StartThenStop(FailCase, pid) == [Ok, Ok]
    ensures StartExitStop(FailCase, pid) == [Ok, Ok, Ok]
    ensures StartThenStop(NonExecutableCase, pid) == [Err(LaunchFailed(NotExecutable("/tmp"))), Ok]
    ensures StartThenStop(RunDirFailCase, pid) == [Err(LaunchFailed(RunDirUnusable("/bin/sh/foo/bar"))), Ok]
  {
    assert "/bin/sh/foo/bar" !in TestHost;
    forall d | d in {SleepCase, FailCase, NonExecutableCase, RunDirFailCase}
      ensures StartThenStop(d, pid) == [Step(Initial, Supervise(Launch(TestHost, d, pid))).1, Ok]
    {
      var l := Launch(TestHost, d, pid);
      RunCons(Initial, Supervise(l), [Stop]);
      RunCons(Step(Initial, Supervise(l)).0, Stop, []);
      assert [Supervise(l)] + [Stop] == [Supervise(l), Stop];
    }
    var l := Launch(TestHost, FailCase, pid);
    var started := Step(Initial, Supervise(l)).0;
    RunCons(Initial, Supervise(l), [ChildExited, Stop]);
    RunCons(started, ChildExited, [Stop]);
    RunCons(Step(started, ChildExited).0, Stop, []);
    assert [Supervise(l), ChildExited, Stop] == [Supervise(l)] + [ChildExited, Stop];
    assert [ChildExited, Stop] == [ChildExited] + [Stop];
  }

  /**
   * Start, let the child exit, let the respawn delay elapse, stop: every
   * call succeeds, the supervisor owns the first child, then none, then the
   * relaunched one, whose pid differs from the first whenever the host hands
   * out new pids; after the stop it owns none.
   */
  lemma RespawnScenario(first: Pid, second: Pid)
    requires FreshTrace(Initial, [Supervise(Success(first)), ChildExited, DelayElapsed(second)])
    ensures var events := [Supervise(Success(first)), ChildExited, DelayElapsed(second), Stop];
      && Run(Initial, events).1 == [Ok, Ok, Ok, Ok]
      && GetProcess(Run(Initial, events[..1]).0) == Some(first)
      && GetProcess(Run(Initial, events[..2]).0) == None
      && GetProcess(Run(Initial, events[..3]).0) == Some(second)
      && second != first
      && GetProcess(Run(Initial, events).0) == None
  {
    var e1, e2, e3, e4 := Supervise(Success(first)), ChildExited, DelayElapsed(second), Stop;
    var s1 := Step(Initial, e1).0;
    var s2 := Step(s1, e2).0;
    var s3 := Step(s2, e3).0;
    RunCons(Initial, e1, []);
    RunCons(Initial, e1, [e2]);
    RunCons(s1, e2, []);
    RunCons(Initial, e1, [e2, e3]);
    RunCons(s1, e2, [e3]);
    RunCons(s2, e3, []);
    RunCons(Initial, e1, [e2, e3, e4]);
    RunCons(s1, e2, [e3, e4]);
    RunCons(s2, e3, [e4]);
    RunCons(s3, e4, []);
    var events := [e1, e2, e3, e4];
    assert events[..1] == [e1] + [] && events[..2] == [e1] + [e2];
    assert events[..3] == [e1] + [e2, e3] && events == [e1] + [e2, e3, e4];
    assert [e2, e3] == [e2] + [e3] && [e3] == [e3] + [];
    assert [e2, e3, e4] == [e2] + [e3, e4] && [e3, e4] == [e3] + [e4] && [e4] == [e4] + [];
    assert [e1, e2, e3][1..] == [e2, e3] && [e2, e3][1..] == [e3];
    assert FreshTrace(s1, [e2, e3]);
    assert Run(s1, [e2, e3]).0 == s3;
    RelaunchedProcessIsNew(s1, [e2, e3]);
  }

  /**
   * Start a child that exits at once and stop while the respawn delay is
   * pending: every call succeeds, and no exit or elapsed delay afterwards
   * brings a process back.
   */
  lemma StopWhileRespawnScenario(first: Pid, later: seq<Event>)
    requires NoSupervise(later)
    ensures var events := [Supervise(Success(first)), ChildExited, Stop] + later;
      && Run(Initial, events).1[..3] == [Ok, Ok, Ok]
      && GetProcess(Run(Initial, events).0) == None
      && Run(Initial, events).0.spawned == [first]
  {
    var e1, e2 := Supervise(Success(first)), ChildExited;
    var s1 := Step(Initial, e1).0;
    var waiting := Step(s1, e2).0;
    var stopped := Step(waiting, Stop).0;
    RunCons(Initial, e1, [e2, Stop] + later);
    RunCons(s1, e2, [Stop] + later);
    RunCons(waiting, Stop, later);
    assert [e1, e2, Stop] + later == [e1] + ([e2, Stop] + later);
    assert [e2, Stop] + later == [e2] + ([Stop] + later);
    NoRelaunchAfterStop(waiting, later);
  }
}

=== FILE: supervisor_properties.dfy ===
/** What the supervisor's callers can rely on, over single events and whole event sequences. */
module SupervisorProperties {
  import opened Wrappers
  import opened Supervisor

  /** A pid the supervisor never launched differs from every pid it did. */
  lemma FreshIsDistinctFromSpawned(s: Supervisor, pid: Pid)
    requires Distinct(s.spawned) && pid !in s.spawned
    ensures Distinct(s.spawned + [pid])
  {
    var xs := s.spawned + [pid];
    forall i, j | 0 <= i < j < |xs|
      ensures xs[i] != xs[j]
    {
      if j == |xs| - 1 {
        assert xs[i] == s.spawned[i];
      } else {
        assert xs[i] == s.spawned[i] && xs[j] == s.spawned[j];
      }
    }
  }

  /**
   * Starting a stopped supervisor reports an error exactly when the launch
   * fails; a failed start leaves it fully stopped, a successful one owns
   * the launched process.
   */
  lemma SuperviseReportsLaunchOutcome(s: Supervisor, launch: Result<Pid, LaunchError>)
    requires s.phase.Stopped?
    ensures var (t, reply) := Step(s, Supervise(launch));
      && (reply.Err? <==> launch.Failure?)
      && (launch.Failure? ==> t == s && GetProcess(t) == None && reply == Err(LaunchFailed(launch.error)))
      && (launch.Success? ==> GetProcess(t) == Some(launch.value) && t.spawned == s.spawned + [launch.value])
  {
  }

  /**
   * Stop succeeds from every state; afterwards no process is owned and the
   * launch history is untouched. Stopping twice is the same as once.
   */
  lemma StopAlwaysSucceeds(s: Supervisor)
    ensures var (t, reply) := Step(s, Stop);
      && reply == Ok
      && GetProcess(t) == None
      && t.spawned == s.spawned
      && Step(t, Stop) == (t, Ok)
  {
  }

  /**
   * The child's exit answers `Ok` (the monitor has no caller to report to),
   * and in the model leaves no process owned until the relaunch.
   */
  lemma ExitIsNotAnError(s: Supervisor)
    ensures var (t, reply) := Step(s, ChildExited);
      && reply == Ok
      && GetProcess(t) == None
      && t.spawned == s.spawned
      && (s.phase.Running? ==> t.phase == WaitingRespawn)
  {
  }

  /** One event keeps the invariant, provided the pid it brings in is new. */
  lemma StepPreservesValid(s: Supervisor, e: Event)
    requires Valid(s) && FreshPid(s, e)
    ensures Valid(Step(s, e).0)
  {
    match e
    case Supervise(Success(pid)) =>
      if s.phase.Stopped? {
        FreshIsDistinctFromSpawned(s, pid);
      }
    case DelayElapsed(pid) =>
      if s.phase.WaitingRespawn? {
        FreshIsDistinctFromSpawned(s, pid);
      }
    case _ =>
  }

  /** A whole sequence of events keeps the invariant when the host hands out new pids. */
  lemma {:induction false} RunPreservesValid(s: Supervisor, events: seq<Event>)
    requires Valid(s) && FreshTrace(s, events)
    ensures Valid(Run(s, events).0)
    decreases |events|
  {
    if events != [] {
      StepPreservesValid(s, events[0]);
      RunPreservesValid(Step(s, events[0]).0, events[1..]);
    }
  }

  /**
   * After the child exits and the respawn delay elapses, the supervisor owns
   * the relaunched process; in between it owns none. When the host hands out
   * a pid it never gave this supervisor before, that pid differs from the one
   * that exited.
   */
  lemma RespawnYieldsNewPid(s: Supervisor, newPid: Pid)
    requires Valid(s) && s.phase.Running?
    requires newPid !in s.spawned
    ensures var exited := Step(s, ChildExited).0;
      && GetProcess(exited) == None
      && var (respawned, reply) := Step(exited, DelayElapsed(newPid));
      && reply == Ok
      && GetProcess(respawned) == Some(newPid)
      && newPid != s.phase.pid
  {
  }

  /**
   * Whenever the supervisor has launched something since `s`, and the host
   * handed out only pids it never gave before, the process it owns at the end
   * is not the one it owned in `s`.
   */
  lemma RelaunchedProcessIsNew(s: Supervisor, events: seq<Event>)
    requires Valid(s) && s.phase.Running? && FreshTrace(s, events)
    requires |Run(s, events).0.spawned| > |s.spawned|
    requires Run(s, events).0.phase.Running?
    ensures Run(s, events).0.phase.pid != s.phase.pid
  {
    var t := Run(s, events).0;
    RunPreservesValid(s, events);
    var n := |s.spawned|;
    assert t.spawned[n - 1] == s.spawned[n - 1] == s.phase.pid;
    assert t.phase.pid == t.spawned[|t.spawned| - 1];
  }

  /** Events from which nobody starts the supervisor again. */
  predicate NoSupervise(events: seq<Event>)
  {
    forall i :: 0 <= i < |events| ==> !events[i].Supervise?
  }

  /**
   * A stopped supervisor stays stopped, owns no process and launches
   * nothing until it is started again, whatever late exits or elapsed
   * delays arrive; every such event and every further stop succeeds.
   */
  lemma {:induction false} StoppedStaysStopped(s: Supervisor, events: seq<Event>)
    requires s.phase.Stopped? && NoSupervise(events)
    ensures Run(s, events).0 == s
    ensures forall i :: 0 <= i < |events| ==> Run(s, events).1[i] == Ok
    decreases |events|
  {
    if events != [] {
      assert !events[0].Supervise?;
      assert NoSupervise(events[1..]) by {
        forall i | 0 <= i < |events[1..]|
          ensures !events[1..][i].Supervise?
        {
          assert events[1..][i] == events[i + 1];
        }
      }
      StoppedStaysStopped(s, events[1..]);
    }
  }

  /** Once stop has returned, no later exit or delay brings a process back. */
  lemma NoRelaunchAfterStop(s: Supervisor, events: seq<Event>)
    requires NoSupervise(events)
    ensures var t := Run(Step(s, Stop).0, events).0;
      GetProcess(t) == None && t.spawned == s.spawned
  {
    StoppedStaysStopped(Step(s, Stop).0, events);
  }
}

=== FILE: wrappers.dfy ===
/** Small failure-carrying datatypes shared by the environment and supervisor models. */
module Wrappers {

  /** A value that may be absent, as Go's nil process handle or a missing map key. */
  datatype Option<+T> = None | Some(value: T)

  /** The outcome of an operation that either yields a value or an error. */
  datatype Result<+T, +E> = Success(value: T) | Failure(error: E)

  /** Looks `k` up in `m`, turning a missing key into `None`. */
  function Find<K, V>(m: map<K, V>, k: K): (r: Option<V>)
    ensures r.Some? <==> k in m
    ensures r.Some? ==> r.value == m[k]
  {
    if k in m then Some(m[k]) else None
  }

  /** Two maps that agree on every lookup are the same map. */
  lemma FindExtensional<K, V>(m1: map<K, V>, m2: map<K, V>)
    requires forall k :: Find(m1, k) == Find(m2, k)
    ensures m1 == m2
  {
    assert forall k :: k in m1 <==> Find(m1, k).Some?;
    assert m1.Keys == m2.Keys;
    forall k | k in m1
      ensures m1[k] == m2[k]
    {
      assert Find(m1, k) == Find(m2, k);
    }
  }
}
